=== FILE: README.md ===
# Incremental backup: change detection and reconciliation

This project models the core of `incremental_backup.py`. That file holds one
class, `IncrementalBackup`, which mirrors a source directory into a destination
directory and copies only the files that are new or whose content digest
changed since the last run. The state of the last run is a JSON metadata file.

The model keeps the program's own shape:

- `Paths` gives Python's ordering of `str` and the `sorted` of a set of paths
  (`SortedPaths`, built by repeatedly taking the least remaining path).
- `Fingerprinter` is `_scan_directory` over an abstract source tree. For each
  relative path the tree says what `stat` and reading the file would yield. A
  missing root gives an empty map. A failed `stat` drops the file. A failed read
  records the empty-string digest. The digest function (MD5 in the program) is a
  parameter.
- `SnapshotStore` holds the metadata dictionary, with every key optional. It
  covers `_load_metadata`: a missing, unreadable or non-JSON file gives `{}`. It
  covers `_save_metadata`, whose write can succeed, fail to open, or fail after
  truncating the file. It also builds the record that replaces the metadata at
  the end of a run.
- `Classification` is the set algebra of `_compare_files` and the copy-set
  decision of `backup`: compare when incremental and the metadata has a `files`
  key, copy everything otherwise.
- `Destination` is the destination directory, a class whose `files` map is
  updated in place. It has the copy primitive (`shutil.copy2`). The model
  assumes that a copy either succeeds and writes the source content or fails
  without effect; "## Left out" says where `shutil.copy2` does otherwise.
  It also has the copy loop, which walks the sorted copy set, counts successes
  and carries on after a failed `shutil.copy2`.
- `Backup` is the class `IncrementalBackup`: its `metadata_file` and
  `metadata` fields, the constructor that loads the one from the other,
  `CompareFiles` and `Backup`. `Backup` returns early on a missing source or an
  empty scan. Otherwise it plans, copies, replaces `metadata` wholesale with a
  record of the whole scan and saves it to the same file, even after a failed
  `shutil.copy2`.

Three choices follow the code as written:

- The comparison runs whenever the metadata has a `files` key, even an empty
  one. Comparing only against a non-empty `files` would give the same copy set:
  `EmptySnapshotCopiesAll` shows that an empty `files` makes every scanned path
  new.
- The metadata file is overwritten in place, not written to a temporary file
  and renamed. So `WriteFailed` leaves a truncated file that the next start-up
  reads as `{}`, unless the cut falls inside a multi-byte character, which
  crashes start-up (see "## Left out").
- The run produces no report of counts beyond what it prints. `RunOutcome`
  carries the plan, the order in which copies were tried and `copied_count`.

## Model

| member | source | states |
|---|---|---|
| `Paths.LessIrreflexive` | incremental_backup.py:219 | no path sorts before itself |
| `Paths.LessTransitive` | incremental_backup.py:219 | the string order used by `sorted` is transitive |
| `Paths.LessTotal` | incremental_backup.py:219 | any two distinct paths are ordered one way or the other |
| `Paths.LessAsymmetric` | incremental_backup.py:219 | two paths are never each before the other |
| `Paths.SortedListingLength` | incremental_backup.py:219 | a strictly sorted listing has no repeated path |
| `Paths.SortedListingIsUnique` | incremental_backup.py:219 | two strictly sorted listings of the same set are equal, so the listing is `sorted(set)` |
| `Paths.Smallest` | incremental_backup.py:219 | returns a member of the non-empty set that sorts before every other member |
| `Paths.SortedPaths` | incremental_backup.py:219 | lists exactly the set's paths, each once, in strictly increasing order |
| `Fingerprinter.FileHash` | incremental_backup.py:31-50 | a readable file's record carries the digest of its content; a file whose read raises carries the `""` sentinel |
| `Fingerprinter.ScanContents` | incremental_backup.py:52-91 | a path is scanned iff the root exists, the file is there and its `stat` succeeds; the record keeps the size and the content digest, or `""` when the file cannot be read |
| `Fingerprinter.ScanDirectory` | incremental_backup.py:62-91 | the walk returns the scan: empty for a missing root, keys exactly the files whose `stat` succeeded |
| `SnapshotStore.LoadMetadata` | incremental_backup.py:93-107 | a JSON file loads as its contents; a missing, unreadable or malformed file loads as `{}`, which has no `files` key |
| `SnapshotStore.NewSnapshot` | incremental_backup.py:238-244 | the new record's `files` is exactly the scan; `backup_type` is `incremental` iff the flag was set and `full` otherwise; it carries the time and both paths |
| `SnapshotStore.LoadAfterSave` | incremental_backup.py:109-116 | after a successful save the next load returns the saved record; after a failed open it returns what was there; after a failed write it has no `files` key |
| `SnapshotStore.MetadataFile.Save` | incremental_backup.py:109-116 | the file becomes the JSON of the record, is left alone, or is left truncated, by how the write ends |
| `Classification.ClassesAreDisjoint` | incremental_backup.py:130-140 | new, modified and deleted are pairwise disjoint; new and modified are scanned paths; deleted paths are not scanned |
| `Classification.ScanIsPartitioned` | incremental_backup.py:130-140 | every scanned path is exactly one of new, modified or unchanged, and the three counts add up to the number scanned |
| `Classification.DigestIsAuthoritative` | incremental_backup.py:137-140 | a path in both maps with equal digest is neither new, modified nor deleted, whatever its size and mtime |
| `Classification.CompareWithItself` | incremental_backup.py:118-142 | comparing a scan against a snapshot of itself gives three empty sets |
| `Classification.DecidePlan` | incremental_backup.py:179-209 | the run compares iff it is incremental and the metadata has a `files` key |
| `Classification.CopySetIsChangedPaths` | incremental_backup.py:179-181 | the copy set is within the scan; when comparing, a path is copied iff it is new or its digest changed; otherwise iff it was scanned |
| `Classification.FullModeCopiesAll` | incremental_backup.py:208-209 | a full run copies every scanned path |
| `Classification.LoadFallbackCopiesAll` | incremental_backup.py:100-107 | after a missing, unreadable or corrupt metadata file, even an incremental run copies every scanned path |
| `Classification.EmptySnapshotCopiesAll` | incremental_backup.py:128-135 | a snapshot with empty `files` makes every scanned path new and copied |
| `Classification.DeletedAreNeverCopied` | incremental_backup.py:204-207 | paths in the snapshot but not in the scan are never in the copy set |
| `Classification.SecondRunCopiesNothing` | incremental_backup.py:234-235 | an incremental run against a snapshot of the same scan has an empty copy set |
| `Classification.EditAndAddScenario` | incremental_backup.py:179-181 | after editing `a.txt` and adding `c.txt`, the run finds `c.txt` new, `a.txt` modified, nothing deleted, and copies those two |
| `Destination.CopyEffect` | incremental_backup.py:219-231 | outside the copy set, and where a copy failed, a destination entry (or its absence) is unchanged; a copied path holds the source content; no entry is ever removed |
| `Destination.DestinationTree.Copy` | incremental_backup.py:226-231 | the copy succeeds iff the source file is readable and the platform allows it; on success the path gets the source content, on failure nothing changes, as the model assumes |
| `Destination.CopyAll` | incremental_backup.py:218-233 | every path of the copy set is tried once, in sorted order, after any failed `shutil.copy2`; `copied_count` is the number of successful copies, at most the copy set's size; the destination is the old one with exactly those copies applied |
| `Backup.IncrementalBackup.constructor` | incremental_backup.py:28-29 | the object keeps the metadata file, and its metadata is that file loaded, without `files` when the file was missing or corrupt |
| `Backup.IncrementalBackup.CompareFiles` | incremental_backup.py:118-142 | new = current − previous, deleted = previous − current, modified = paths in both whose digest differs; `files` absent counts as empty |
| `Backup.IncrementalBackup.DecideCopySet` | incremental_backup.py:178-209 | with the incremental flag and a `files` key, the copy set is exactly the scanned paths that are new or whose digest changed; otherwise it is every scanned path |
| `Backup.IncrementalBackup.Backup` | incremental_backup.py:144-245 | a missing source or an empty scan changes nothing; otherwise the planned copy set is copied in sorted order, the count is the successes, the destination changes only at copied paths, and the metadata and the object's own metadata file become the record of the whole scan, even after failed copies |
| `Backup.FailedCopyIsNotRetried` | incremental_backup.py:238-244 | a path whose copy failed is recorded all the same, so the next incremental run over an unchanged source does not copy it |
| `Backup.RunTwice` | incremental_backup.py:174-245 | two runs over an unchanged source, both saving: the second compares, tries no copy and counts zero copies |

## Left out

- MD5 and the chunked read are not modelled. The digest is a function parameter, so the model does not rule out collisions. The empty-string sentinel for an unreadable file is kept.
- The tree walk is flattened. The source tree is a map from relative path to file, and the nested `os.walk` loops become one loop over that map in unspecified order. Symbolic links are whatever the abstract tree lists; special files are covered by the `Fingerprinter.ScanDirectory` line below.
- A source path that names a regular file rather than a directory is not modelled. It is the same as a present directory with no files, which ends the run as "no files found".
- `Path.resolve` and the home-directory location of the metadata file are not modelled. The resolved source and destination paths are string parameters.
- The wall clock is a parameter: `datetime.now()` becomes the `now` string.
- `mtime` is a `real` that is stored and never compared. The `mtime_readable` string is left out. The model does not include the ways computing it can fail; the next line covers those.
- `Fingerprinter.ScanDirectory`, `Fingerprinter.ScanContents`: assume every modification time is within the range `datetime.fromtimestamp` accepts, and that no source file blocks when it is opened. The program guarantees neither.
  - Converting an out-of-range mtime (incremental_backup.py:83) raises `ValueError` or `OverflowError`. The `except` at incremental_backup.py:88 does not catch those, so one such file crashes the whole scan.
  - On a platform where that conversion raises `OSError` instead, the file is silently dropped even though its `stat` succeeded.
  - Opening a named pipe for reading (incremental_backup.py:43) blocks until a writer appears, so the run never ends.
  - The model scans every file whose `stat` succeeds and always finishes.
- Creating the destination directory and the parents of each copied file (`mkdir`) is left out, because directories are not modelled. `shutil.copy2` copies content only. The preservation of timestamps is left out.
- `Destination.CopyAll`, `Backup.IncrementalBackup.Backup`: assume that creating the destination directory and each parent directory succeeds, and that no copied path is an existing directory at the destination. The program does not guarantee either. Creating the destination (incremental_backup.py:169) or a parent (incremental_backup.py:224) happens outside any `try`. If it fails, the run ends there, with no further copies and no save. One way to reach this: the destination still holds a file `docs` from an earlier run, and `docs/readme.md` now needs copying. And when the destination path is an existing directory, `shutil.copy2` writes a file inside it instead of replacing it. Only a failing `shutil.copy2` itself is modelled as a failed copy that the loop steps over.
- `Destination.DestinationTree.Copy`, `Destination.CopyEffect`, `Destination.CopyAll`: assume a failed copy has no effect on the destination. `shutil.copy2` does not guarantee this. It is `copyfile` followed by `copystat`, and `copyfile` opens the destination for writing, which creates or truncates it, before copying any data.
  - A write error after that open (a full disk, an I/O error, a quota) is caught at incremental_backup.py:230 and counted as a failure, but the destination file is left empty or partial. The previous backup copy of that file is lost, or a partial file appears where there was none.
  - If `copystat` raises after the data is copied, the content is in place in full, yet the copy counts as a failure.
  - Because the new snapshot records the current digest of every scanned path (`Backup.FailedCopyIsNotRetried`), a destination file damaged this way is not repaired by later incremental runs while the source file stays unchanged.
  - The model leaves the destination as it was on every failed copy.
- The source is assumed not to change between the scan and the copies: the copy reads the same tree the scan read.
- JSON encoding is not modelled. A loaded file is assumed to be a JSON object whose `files` entries each carry a `hash`. JSON values that are not objects (arrays, strings, numbers, booleans, null) are not modelled; depending on the value and the mode, the program treats them as "no `files`" or crashes at incremental_backup.py:128 or 179. Invalid UTF-8, which `json.load` raises outside the caught exceptions, would crash the constructor; that crash is not modelled either.
- `SnapshotStore.LoadAfterSave`, `SnapshotStore.MetadataFile.Save`: assume a write that fails partway leaves a file the next load rejects as malformed JSON. `json.dump` with `ensure_ascii=False` (incremental_backup.py:113) writes non-ASCII path characters as multi-byte UTF-8. A write that stops inside one of those characters leaves a file whose decoding (incremental_backup.py:102) raises `UnicodeDecodeError`. The `except` at incremental_backup.py:104 does not catch it, so every later start-up crashes at incremental_backup.py:29 until the file is removed. The model reads every truncated file as `{}`.
- `SnapshotStore.MetadataFile.Save`, `Backup.IncrementalBackup.Backup`: assume every path is valid Unicode. Paths are Dafny strings, which cannot hold the lone surrogates that `os.walk` uses for undecodable bytes in a file name. The program crashes on such a name with `UnicodeEncodeError`, which neither `except` clause catches, at one of two points.
  - When the progress output is strict UTF-8, the crash comes at the `print` inside the scan (incremental_backup.py:86), before any copy.
  - Otherwise it comes in `json.dump` (incremental_backup.py:113), after the copies. The metadata file is then left truncated.
  - The model finishes the run and saves.
- `Backup.RunTwice`, `Backup.IncrementalBackup.Backup`: the source tree, the destination tree and the metadata file are independent values, so the model assumes the three do not overlap. The program does not check this. If the source contains the metadata file (the source is the home directory), each save changes a scanned file. A second run over an otherwise untouched source then copies that file, and `copied_count` is 1, not 0. If the destination lies inside the source, each run rescans the previous run's copies and copies them again one level deeper.
- All printed progress, and the `main` argument handling, are left out. What the printout reports is returned as `RunOutcome`.

=== FILE: backup.dfy ===
/**
 * The reconciler: the `IncrementalBackup` object, which holds the metadata
 * of the last run, compares a fresh scan against it, copies what changed and
 * replaces the metadata with the fresh scan.
 */
module Backup {
  import opened Optional
  import opened Paths
  import opened Fingerprinter
  import opened SnapshotStore
  import opened Classification
  import opened Destination

  /** How a call to `backup` ends, as its printed summary reports it. */
  datatype RunOutcome =
    | SourceMissing
    | NoFilesFound
    | Completed(plan: Plan, attempts: seq<Path>, copiedCount: nat)

  class IncrementalBackup {
    /** `self.metadata_file`: the one file both loaded at start-up and written at the end of a run. */
    const metadataFile: MetadataFile

    /** `self.metadata`: the dictionary loaded at start-up, replaced by a completed run. */
    var metadata: Metadata

    /** Loads the metadata file; a missing or corrupt file gives `{}`. */
    constructor (store: MetadataFile)
      ensures metadataFile == store
      ensures metadata == LoadMetadata(store.stored)
      ensures !store.stored.Json? ==> metadata.files.None?
    {
      metadataFile := store;
      metadata := LoadMetadata(store.stored);
    }

    /**
     * `_compare_files`: new and deleted paths by set difference with the
     * snapshot's `files` (an empty map when the key is absent), modified
     * paths by comparing the digests of the paths in both.
     */
    method CompareFiles(current: FileMap) returns (newFiles: set<Path>, modifiedFiles: set<Path>, deletedFiles: set<Path>)
      ensures newFiles == current.Keys - PreviousFiles(metadata).Keys
      ensures deletedFiles == PreviousFiles(metadata).Keys - current.Keys
      ensures forall p :: p in modifiedFiles <==>
        p in current && p in PreviousFiles(metadata) && current[p].hash != PreviousFiles(metadata)[p].hash
      ensures Comparison(newFiles, modifiedFiles, deletedFiles) == Classify(current, PreviousFiles(metadata))
    {
      var previous := PreviousFiles(metadata);
      var currentSet, previousSet := current.Keys, previous.Keys;
      newFiles := currentSet - previousSet;
      deletedFiles := previousSet - currentSet;
      var potentiallyModified := currentSet * previousSet;
      modifiedFiles := {};
      var pending := potentiallyModified;
      while pending != {}
        invariant pending <= potentiallyModified
        invariant modifiedFiles == set p | p in potentiallyModified - pending && current[p].hash != previous[p].hash
        decreases pending
      {
        var p :| p in pending;
        if current[p].hash != previous[p].hash {
          modifiedFiles := modifiedFiles + {p};
        }
        pending := pending - {p};
      }
    }

    /**
     * The copy-set decision inside `backup`: with the incremental flag and a
     * `files` entry in the metadata, the new and modified paths; otherwise
     * every scanned path.
     */
    method DecideCopySet(current: FileMap, incremental: bool) returns (plan: Plan, toCopy: set<Path>)
      ensures plan == DecidePlan(incremental, metadata, current)
      ensures toCopy == CopySet(plan, current)
      ensures toCopy <= current.Keys
      ensures forall p :: p in toCopy <==>
        p in current && (!(incremental && metadata.files.Some?) || Changed(current, metadata.files.value, p))
    {
      if incremental && metadata.files.Some? {
        var newFiles, modifiedFiles, deletedFiles := CompareFiles(current);
        plan := Compared(Comparison(newFiles, modifiedFiles, deletedFiles));
        toCopy := newFiles + modifiedFiles;
      } else {
        plan := FullCopy;
        toCopy := current.Keys;
      }
    }

    /**
     * `backup`: a missing source or an empty scan ends the run with nothing
     * changed. Otherwise the copy set is decided, copied in sorted order,
     * and the metadata is replaced by a record of the whole scan, which is
     * then written to the metadata file, whatever the copies did.
     */
    method Backup(tree: SourceTree, sourcePath: string, dest: DestinationTree, destPath: string, incremental: bool,
                  digest: Bytes -> string, denied: set<Path>, saveResult: SaveResult, now: string)
      returns (outcome: RunOutcome)
      modifies this, dest, metadataFile
      ensures tree.Missing? ==> outcome == SourceMissing && unchanged(this, dest, metadataFile)
      ensures tree.Present? && Scan(tree, digest) == map[] ==> outcome == NoFilesFound && unchanged(this, dest, metadataFile)
      ensures tree.Present? && Scan(tree, digest) != map[] ==>
        var current := Scan(tree, digest);
        var plan := DecidePlan(incremental, old(metadata), current);
        var toCopy := CopySet(plan, current);
        && outcome.Completed? && outcome.plan == plan
        && StrictlySorted(outcome.attempts) && Elements(outcome.attempts) == toCopy
        && outcome.copiedCount == |Succeeded(tree, denied, toCopy)| <= |toCopy|
        && dest.files == AfterCopies(old(dest.files), tree, Succeeded(tree, denied, toCopy))
        && metadata == NewSnapshot(now, sourcePath, destPath, current, incremental)
        && metadataFile.stored == AfterSave(old(metadataFile.stored), metadata, saveResult)
    {
      if tree.Missing? {
        return SourceMissing;
      }
      var current := ScanDirectory(tree, digest);
      if current == map[] {
        return NoFilesFound;
      }
      var plan, toCopy := DecideCopySet(current, incremental);
      var copiedCount, attempts := CopyAll(tree, denied, dest, toCopy);
      metadata := NewSnapshot(now, sourcePath, destPath, current, incremental);
      metadataFile.Save(metadata, saveResult);
      outcome := Completed(plan, attempts, copiedCount);
    }
  }

  /**
   * A path whose copy failed is still recorded in the new snapshot, so an
   * incremental run over an unchanged source does not try it again.
   */
  lemma FailedCopyIsNotRetried(tree: SourceTree, digest: Bytes -> string, denied: set<Path>, incremental: bool,
                               previous: Metadata, now: string, sourcePath: string, destPath: string, p: Path)
    requires p in CopySet(DecidePlan(incremental, previous, Scan(tree, digest)), Scan(tree, digest))
    requires !CopySucceeds(tree, denied, p)
    ensures p in Scan(tree, digest)
    ensures p !in CopySet(DecidePlan(true, NewSnapshot(now, sourcePath, destPath, Scan(tree, digest), incremental), Scan(tree, digest)), Scan(tree, digest))
  {
  }

  /**
   * Two processes run one after the other over an unchanged source, the
   * first in either mode, both saving their metadata: the second compares
   * and copies nothing, even where copies of the first run failed.
   */
  method RunTwice(tree: SourceTree, sourcePath: string, dest: DestinationTree, destPath: string, firstIncremental: bool,
                  digest: Bytes -> string, denied: set<Path>, store: MetadataFile, now1: string, now2: string)
    returns (first: RunOutcome, second: RunOutcome)
    requires tree.Present? && Scan(tree, digest) != map[]
    modifies dest, store
    ensures first.Completed? && Elements(first.attempts) == CopySet(first.plan, Scan(tree, digest))
    ensures second.Completed? && second.plan.Compared? && second.attempts == [] && second.copiedCount == 0
    ensures LoadMetadata(store.stored).files == Some(Scan(tree, digest))
  {
    var run1 := new IncrementalBackup(store);
    first := run1.Backup(tree, sourcePath, dest, destPath, firstIncremental, digest, denied, Saved, now1);
    var run2 := new IncrementalBackup(store);
    SecondRunCopiesNothing(run2.metadata, Scan(tree, digest));
    second := run2.Backup(tree, sourcePath, dest, destPath, true, digest, denied, Saved, now2);
    NonEmptyHasElement(second.attempts);
  }
}

=== FILE: classification.dfy ===
/**
 * Change detection: how the current scan and the previous snapshot's
 * `files` map split into new, modified and deleted paths, and which
 * paths a run copies.
 */
module Classification {
  import opened Optional
  import opened Paths
  import opened Fingerprinter
  import opened SnapshotStore

  /** The three sets `_compare_files` returns. */
  datatype Comparison = Comparison(newFiles: set<Path>, modifiedFiles: set<Path>, deletedFiles: set<Path>)

  /** Paths present in both maps whose recorded digest differs. */
  function ModifiedPaths(current: FileMap, previous: FileMap): set<Path> {
    set p | p in current && p in previous && current[p].hash != previous[p].hash
  }

  /** Paths present in both maps with the same digest: never acted upon. */
  function UnchangedPaths(current: FileMap, previous: FileMap): set<Path> {
    set p | p in current && p in previous && current[p].hash == previous[p].hash
  }

  function Classify(current: FileMap, previous: FileMap): Comparison {
    Comparison(current.Keys - previous.Keys, ModifiedPaths(current, previous), previous.Keys - current.Keys)
  }

  /** A path needs copying when it is new or its digest changed. */
  predicate Changed(current: FileMap, previous: FileMap, p: Path) {
    p in current && (p !in previous || current[p].hash != previous[p].hash)
  }

  /** New, modified and deleted are pairwise disjoint, and deleted paths are exactly those no longer scanned. */
  lemma ClassesAreDisjoint(current: FileMap, previous: FileMap)
    ensures var c := Classify(current, previous);
      && c.newFiles !! c.modifiedFiles
      && c.newFiles !! c.deletedFiles
      && c.modifiedFiles !! c.deletedFiles
      && c.newFiles + c.modifiedFiles <= current.Keys
      && c.deletedFiles !! current.Keys
  {
  }

  /** Every scanned path is exactly one of new, modified or unchanged, so the counts add up to the scan's size. */
  lemma ScanIsPartitioned(current: FileMap, previous: FileMap)
    ensures var c := Classify(current, previous);
      && current.Keys == c.newFiles + c.modifiedFiles + UnchangedPaths(current, previous)
      && c.modifiedFiles !! UnchangedPaths(current, previous)
      && c.newFiles !! UnchangedPaths(current, previous)
      && |c.newFiles| + |c.modifiedFiles| + |UnchangedPaths(current, previous)| == |current|
  {
  }

  /** The digest alone decides: equal digests mean unchanged whatever `size` and `mtime` say. */
  lemma DigestIsAuthoritative(current: FileMap, previous: FileMap, p: Path)
    requires p in current && p in previous
    requires current[p].hash == previous[p].hash
    ensures p !in Classify(current, previous).newFiles
    ensures p !in Classify(current, previous).modifiedFiles
    ensures p !in Classify(current, previous).deletedFiles
    ensures !Changed(current, previous, p)
  {
  }

  /** Comparing a scan against a snapshot of that very scan finds nothing. */
  lemma CompareWithItself(current: FileMap)
    ensures Classify(current, current) == Comparison({}, {}, {})
  {
  }

  /** Which way a run goes: compare with the snapshot, or copy everything. */
  datatype Plan = Compared(classes: Comparison) | FullCopy

  /** Incremental mode with a `files` entry in the metadata compares; anything else copies all. */
  function DecidePlan(incremental: bool, metadata: Metadata, current: FileMap): (plan: Plan)
    ensures plan.Compared? <==> incremental && metadata.files.Some?
  {
    if incremental && metadata.files.Some? then Compared(Classify(current, PreviousFiles(metadata))) else FullCopy
  }

  /** `new | modified` after a comparison, every scanned path otherwise. */
  function CopySet(plan: Plan, current: FileMap): set<Path> {
    match plan
    case Compared(c) => c.newFiles + c.modifiedFiles
    case FullCopy => current.Keys
  }

  /** The copy set is a subset of the scan, and after a comparison it is exactly the changed paths. */
  lemma CopySetIsChangedPaths(incremental: bool, metadata: Metadata, current: FileMap, p: Path)
    ensures CopySet(DecidePlan(incremental, metadata, current), current) <= current.Keys
    ensures incremental && metadata.files.Some? ==>
      (p in CopySet(DecidePlan(incremental, metadata, current), current) <==> Changed(current, metadata.files.value, p))
    ensures !(incremental && metadata.files.Some?) ==>
      (p in CopySet(DecidePlan(incremental, metadata, current), current) <==> p in current)
  {
  }

  /** A full run copies every scanned path. */
  lemma FullModeCopiesAll(metadata: Metadata, current: FileMap)
    ensures CopySet(DecidePlan(false, metadata, current), current) == current.Keys
  {
  }

  /**
   * A missing, unreadable or corrupt metadata file loads as `{}`, which has
   * no `files` entry, so even an incremental run copies every scanned path.
   */
  lemma LoadFallbackCopiesAll(stored: StoredFile, incremental: bool, current: FileMap)
    requires !stored.Json?
    ensures DecidePlan(incremental, LoadMetadata(stored), current) == FullCopy
    ensures CopySet(DecidePlan(incremental, LoadMetadata(stored), current), current) == current.Keys
  {
  }

  /** A snapshot whose `files` is empty makes every scanned path new, so the copy set is again the whole scan. */
  lemma EmptySnapshotCopiesAll(metadata: Metadata, current: FileMap)
    requires metadata.files == Some(map[])
    ensures DecidePlan(true, metadata, current).Compared?
    ensures DecidePlan(true, metadata, current).classes.newFiles == current.Keys
    ensures CopySet(DecidePlan(true, metadata, current), current) == current.Keys
  {
  }

  /** Deleted paths are never in the copy set. */
  lemma DeletedAreNeverCopied(incremental: bool, metadata: Metadata, current: FileMap)
    ensures metadata.files.Some? ==>
      (PreviousFiles(metadata).Keys - current.Keys) !! CopySet(DecidePlan(incremental, metadata, current), current)
  {
  }

  /** An incremental run against a snapshot of the same scan copies nothing. */
  lemma SecondRunCopiesNothing(metadata: Metadata, current: FileMap)
    requires metadata.files == Some(current)
    ensures CopySet(DecidePlan(true, metadata, current), current) == {}
  {
  }

  /**
   * Two files backed up, then `a.txt` edited and `c.txt` added: the next
   * incremental run finds `c.txt` new, `a.txt` modified, nothing deleted,
   * and copies exactly those two.
   */
  lemma EditAndAddScenario(h1: string, h1Edited: string, h2: string, h3: string, metadata: Metadata)
    requires h1 != h1Edited
    requires metadata.files == Some(map["a.txt" := FileInfo(h1, 10, 1.0), "b.txt" := FileInfo(h2, 20, 1.0)])
    ensures var current := map["a.txt" := FileInfo(h1Edited, 12, 2.0), "b.txt" := FileInfo(h2, 20, 1.0), "c.txt" := FileInfo(h3, 5, 2.0)];
      && DecidePlan(true, metadata, current) == Compared(Comparison({"c.txt"}, {"a.txt"}, {}))
      && CopySet(DecidePlan(true, metadata, current), current) == {"a.txt", "c.txt"}
  {
    var previous := metadata.files.value;
    var current := map["a.txt" := FileInfo(h1Edited, 12, 2.0), "b.txt" := FileInfo(h2, 20, 1.0), "c.txt" := FileInfo(h3, 5, 2.0)];
    assert current.Keys == {"a.txt", "b.txt", "c.txt"};
    assert previous.Keys == {"a.txt", "b.txt"};
    assert ModifiedPaths(current, previous) == {"a.txt"};
  }
}

=== FILE: destination.dfy ===
/**
 * The destination tree and the copy loop. Copying one file is a primitive
 * of the platform: it succeeds, putting the source content at the same
 * relative path, or fails and leaves the destination as it was.
 */
module Destination {
  import opened Paths
  import opened Fingerprinter

  /** The source file at `p` exists and can be read. */
  predicate Readable(tree: SourceTree, p: Path) {
    tree.Present? && p in tree.entries && tree.entries[p].content.Some?
  }

  function ContentAt(tree: SourceTree, p: Path): Bytes
    requires Readable(tree, p)
  {
    tree.entries[p].content.value
  }

  /**
   * Whether copying `p` succeeds: the source file must be readable, and the
   * platform refuses the paths in `denied` (permissions, a vanished parent, ...).
   */
  predicate CopySucceeds(tree: SourceTree, denied: set<Path>, p: Path) {
    Readable(tree, p) && p !in denied
  }

  /** The paths of `paths` whose copy succeeds. */
  function Succeeded(tree: SourceTree, denied: set<Path>, paths: set<Path>): (s: set<Path>)
    ensures s <= paths
    ensures forall p :: p in s ==> Readable(tree, p)
  {
    set p | p in paths && CopySucceeds(tree, denied, p)
  }

  /** The destination after the files of `copied` have been copied over it; nothing is removed. */
  function AfterCopies(dest: map<Path, Bytes>, tree: SourceTree, copied: set<Path>): map<Path, Bytes>
    requires forall p :: p in copied ==> Readable(tree, p)
  {
    map p | p in dest.Keys + copied :: if p in copied then ContentAt(tree, p) else dest[p]
  }

  /**
   * Paths outside the copy set, deleted source files among them, keep their
   * destination entry (or its absence); copied paths get the source content;
   * a failed copy leaves its path as it was; nothing is ever removed.
   */
  lemma CopyEffect(dest: map<Path, Bytes>, tree: SourceTree, denied: set<Path>, toCopy: set<Path>, p: Path)
    ensures var after := AfterCopies(dest, tree, Succeeded(tree, denied, toCopy));
      && dest.Keys <= after.Keys
      && (p !in toCopy || !CopySucceeds(tree, denied, p) ==>
            (p in after <==> p in dest) && (p in dest ==> after[p] == dest[p]))
      && (p in toCopy && CopySucceeds(tree, denied, p) ==> p in after && after[p] == ContentAt(tree, p))
  {
  }

  /** The destination directory's files, keyed by relative path. */
  class DestinationTree {
    var files: map<Path, Bytes>

    constructor (initial: map<Path, Bytes>)
      ensures files == initial
    {
      files := initial;
    }

    /** `shutil.copy2` of the source file at `p` to the same relative path here. */
    method Copy(tree: SourceTree, denied: set<Path>, p: Path) returns (ok: bool)
      modifies this
      ensures ok == CopySucceeds(tree, denied, p)
      ensures files == if ok then old(files)[p := ContentAt(tree, p)] else old(files)
    {
      ok := CopySucceeds(tree, denied, p);
      if ok {
        files := files[p := ContentAt(tree, p)];
      }
    }
  }

  /** Copying one more readable path extends the destination the way `AfterCopies` says. */
  lemma AfterCopiesStep(dest: map<Path, Bytes>, tree: SourceTree, copied: set<Path>, p: Path)
    requires forall q :: q in copied ==> Readable(tree, q)
    requires Readable(tree, p)
    ensures AfterCopies(dest, tree, copied)[p := ContentAt(tree, p)] == AfterCopies(dest, tree, copied + {p})
  {
  }

  /** Succeeded over one more path. */
  lemma SucceededStep(tree: SourceTree, denied: set<Path>, done: set<Path>, p: Path)
    requires p !in done
    ensures CopySucceeds(tree, denied, p) ==>
      Succeeded(tree, denied, done + {p}) == Succeeded(tree, denied, done) + {p}
      && |Succeeded(tree, denied, done + {p})| == |Succeeded(tree, denied, done)| + 1
    ensures !CopySucceeds(tree, denied, p) ==> Succeeded(tree, denied, done + {p}) == Succeeded(tree, denied, done)
  {
    if CopySucceeds(tree, denied, p) {
      assert Succeeded(tree, denied, done + {p}) == Succeeded(tree, denied, done) + {p};
    } else {
      assert Succeeded(tree, denied, done + {p}) == Succeeded(tree, denied, done);
    }
  }

  /**
   * Copies the paths of `toCopy` in sorted order. A failed copy is counted
   * out and the loop goes on; `attempts` lists the paths in the order tried.
   */
  method CopyAll(tree: SourceTree, denied: set<Path>, dest: DestinationTree, toCopy: set<Path>)
    returns (copiedCount: nat, attempts: seq<Path>)
    modifies dest
    ensures StrictlySorted(attempts) && Elements(attempts) == toCopy && |attempts| == |toCopy|
    ensures copiedCount == |Succeeded(tree, denied, toCopy)| && copiedCount <= |toCopy|
    ensures dest.files == AfterCopies(old(dest.files), tree, Succeeded(tree, denied, toCopy))
  {
    attempts := SortedPaths(toCopy);
    copiedCount := 0;
    ghost var initial := dest.files;
    ghost var done: set<Path> := {};
    for i := 0 to |attempts|
      invariant done == Elements(attempts[..i])
      invariant copiedCount == |Succeeded(tree, denied, done)|
      invariant dest.files == AfterCopies(initial, tree, Succeeded(tree, denied, done))
    {
      var p := attempts[i];
      SortedPrefixStep(attempts, i);
      SucceededStep(tree, denied, done, p);
      var ok := dest.Copy(tree, denied, p);
      if ok {
        AfterCopiesStep(initial, tree, Succeeded(tree, denied, done), p);
        copiedCount := copiedCount + 1;
      }
      done := done + {p};
    }
    assert attempts[..|attempts|] == attempts;
    SubsetCardinality(Succeeded(tree, denied, toCopy), toCopy);
  }

  lemma {:induction false} SubsetCardinality(a: set<Path>, b: set<Path>)
    requires a <= b
    ensures |a| <= |b|
  {
    assert b == a + (b - a);
  }
}

=== FILE: fingerprint.dfy ===
/**
 * The fingerprinter: walks the source tree and records, per regular file,
 * the digest of its content, its size and its modification time.
 * The tree is given as a value: for each relative path, what `stat` and
 * reading the file would yield.
 */
module Fingerprinter {
  import opened Optional
  import opened Paths

  type Bytes = seq<bv8>

  /** What `stat` reports for a file: byte length and modification time in epoch seconds. */
  datatype Stat = Stat(size: nat, mtime: real)

  /**
   * One regular file under the source root. `stat` is None when `stat()`
   * raises; `content` is None when opening or reading the file raises.
   */
  datatype FsFile = FsFile(stat: Option<Stat>, content: Option<Bytes>)

  /** The source directory: absent, or its regular files keyed by relative path. */
  datatype SourceTree = Missing | Present(entries: map<Path, FsFile>)

  /** The per-file record kept in a snapshot (`hash`, `size`, `mtime`). */
  datatype FileInfo = FileInfo(hash: string, size: nat, mtime: real)

  type FileMap = map<Path, FileInfo>

  /** The digest recorded for a file that could not be read. */
  const UnreadableHash: string := ""

  /** The file's digest, or the sentinel when it cannot be read. */
  function FileHash(f: FsFile, digest: Bytes -> string): (h: string)
    ensures f.content.None? ==> h == UnreadableHash
    ensures f.content.Some? ==> h == digest(f.content.value)
  {
    match f.content
    case Some(bytes) => digest(bytes)
    case None => UnreadableHash
  }

  /** The record made for a file whose `stat` succeeded. */
  function Fingerprint(f: FsFile, digest: Bytes -> string): FileInfo
    requires f.stat.Some?
  {
    FileInfo(FileHash(f, digest), f.stat.value.size, f.stat.value.mtime)
  }

  /** The scan of a tree: every file whose `stat` succeeds, fingerprinted. */
  function Scan(tree: SourceTree, digest: Bytes -> string): FileMap {
    match tree
    case Missing => map[]
    case Present(entries) =>
      map p | p in entries && entries[p].stat.Some? :: Fingerprint(entries[p], digest)
  }

  /** What the scan keeps and what it records for each kept file. */
  lemma ScanContents(tree: SourceTree, digest: Bytes -> string, p: Path)
    ensures p in Scan(tree, digest) <==> tree.Present? && p in tree.entries && tree.entries[p].stat.Some?
    ensures p in Scan(tree, digest) ==>
      && Scan(tree, digest)[p].size == tree.entries[p].stat.value.size
      && (tree.entries[p].content.None? ==> Scan(tree, digest)[p].hash == UnreadableHash)
      && (tree.entries[p].content.Some? ==> Scan(tree, digest)[p].hash == digest(tree.entries[p].content.value))
  {
  }

  /**
   * The walk over the tree, one file at a time: a missing root gives an
   * empty map, a failed `stat` drops the file, an unreadable file gets the
   * empty-string digest.
   */
  method ScanDirectory(tree: SourceTree, digest: Bytes -> string) returns (files: FileMap)
    ensures files == Scan(tree, digest)
    ensures tree.Missing? ==> files == map[]
    ensures tree.Present? ==> files.Keys == set p | p in tree.entries && tree.entries[p].stat.Some?
  {
    files := map[];
    if tree.Missing? {
      return;
    }
    var entries := tree.entries;
    var pending := entries.Keys;
    while pending != {}
      invariant pending <= entries.Keys
      invariant files == map p | p in entries.Keys - pending && entries[p].stat.Some? :: Fingerprint(entries[p], digest)
      decreases pending
    {
      var p :| p in pending;
      var f := entries[p];
      if f.stat.Some? {
        files := files[p := Fingerprint(f, digest)];
      }
      pending := pending - {p};
    }
  }
}

=== FILE: optional.dfy ===
/** The absent-or-present value used for dictionary keys the source may or may not find. */
module Optional {

  datatype Option<+T> = None | Some(value: T) {

    /** The value, or `default` when absent (Python's `dict.get(key, default)`). */
    function GetOr(default: T): T {
      match this
      case Some(v) => v
      case None => default
    }
  }
}

=== FILE: paths.dfy ===
/**
 * Relative paths and the order in which Python's `sorted` lists them:
 * strings compare code point by code point, and a proper prefix comes first.
 */
module Paths {

  /** A path relative to the scanned root, as the string used for a dictionary key. */
  type Path = string

  /** Python's `<` on `str`. */
  predicate Less(a: Path, b: Path)
    decreases |a|
  {
    if |a| == 0 then |b| != 0
    else if |b| == 0 then false
    else a[0] < b[0] || (a[0] == b[0] && Less(a[1..], b[1..]))
  }

  lemma {:induction false} LessIrreflexive(a: Path)
    ensures !Less(a, a)
    decreases |a|
  {
    if |a| != 0 {
      LessIrreflexive(a[1..]);
    }
  }

  lemma {:induction false} LessTransitive(a: Path, b: Path, c: Path)
    requires Less(a, b) && Less(b, c)
    ensures Less(a, c)
    decreases |a|
  {
    if |a| != 0 && a[0] == b[0] && b[0] == c[0] {
      LessTransitive(a[1..], b[1..], c[1..]);
    }
  }

  lemma {:induction false} LessTotal(a: Path, b: Path)
    ensures a == b || Less(a, b) || Less(b, a)
    decreases |a|
  {
    if |a| != 0 && |b| != 0 && a[0] == b[0] {
      LessTotal(a[1..], b[1..]);
      if a[1..] == b[1..] {
        assert a == [a[0]] + a[1..] && b == [b[0]] + b[1..];
      }
    }
  }

  lemma LessAsymmetric(a: Path, b: Path)
    requires Less(a, b)
    ensures !Less(b, a)
  {
  }

  /** The elements of a sequence, as a set. */
  function Elements(s: seq<Path>): set<Path> {
    set x | x in s
  }

  lemma NonEmptyHasElement(s: seq<Path>)
    ensures s != [] ==> s[0] in Elements(s)
  {
  }

  /** Every element strictly before every later one: the listing `sorted` gives of a set. */
  predicate StrictlySorted(s: seq<Path>) {
    forall i, j :: 0 <= i < j < |s| ==> Less(s[i], s[j])
  }

  /** A strictly sorted listing has no repeats: it is as long as its set of elements. */
  lemma {:induction false} SortedListingLength(s: seq<Path>)
    requires StrictlySorted(s)
    ensures |Elements(s)| == |s|
    decreases |s|
  {
    if s != [] {
      SortedListingLength(s[1..]);
      forall k | 1 <= k < |s| ensures s[k] != s[0] {
        LessIrreflexive(s[0]);
      }
      assert s == [s[0]] + s[1..];
      assert Elements(s) == {s[0]} + Elements(s[1..]);
    }
  }

  /** A set has exactly one strictly sorted listing, so a strictly sorted listing of a set is `sorted(set)`. */
  lemma {:induction false} SortedListingIsUnique(a: seq<Path>, b: seq<Path>)
    requires StrictlySorted(a) && StrictlySorted(b)
    requires Elements(a) == Elements(b)
    ensures a == b
    decreases |a|
  {
    if a == [] {
      NonEmptyHasElement(b);
    } else {
      assert a[0] in Elements(b);
      assert b != [];
      assert b[0] in Elements(a);
      if a[0] != b[0] {
        var i :| 0 <= i < |a| && a[i] == b[0];
        var j :| 0 <= j < |b| && b[j] == a[0];
        assert Less(a[0], b[0]);
        assert Less(b[0], a[0]);
        LessAsymmetric(a[0], b[0]);
        assert false;
      }
      forall k | 1 <= k < |a| ensures a[k] != a[0] {
        LessIrreflexive(a[0]);
      }
      forall k | 1 <= k < |b| ensures b[k] != b[0] {
        LessIrreflexive(b[0]);
      }
      assert Elements(a[1..]) == Elements(a) - {a[0]};
      assert Elements(b[1..]) == Elements(b) - {b[0]};
      SortedListingIsUnique(a[1..], b[1..]);
      assert a == [a[0]] + a[1..] && b == [b[0]] + b[1..];
    }
  }

  /** The least path of a non-empty set, found by one pass over it. */
  method Smallest(s: set<Path>) returns (m: Path)
    requires s != {}
    ensures m in s
    ensures forall x :: x in s && x != m ==> Less(m, x)
  {
    m :| m in s;
    var rest := s - {m};
    while rest != {}
      invariant rest <= s && m in s && m !in rest
      invariant forall x :: x in s - rest && x != m ==> Less(m, x)
      decreases rest
    {
      var x :| x in rest;
      if Less(x, m) {
        forall y | y in s - rest && y != x
          ensures Less(x, y)
        {
          if y != m {
            LessTransitive(x, m, y);
          }
        }
        m := x;
      } else {
        LessTotal(x, m);
      }
      rest := rest - {x};
    }
  }

  /** The first `i + 1` elements of a sorted listing are the first `i` and one more, not among them. */
  lemma SortedPrefixStep(s: seq<Path>, i: nat)
    requires StrictlySorted(s) && i < |s|
    ensures Elements(s[..i + 1]) == Elements(s[..i]) + {s[i]}
    ensures s[i] !in Elements(s[..i])
  {
    assert s[..i + 1] == s[..i] + [s[i]];
    if s[i] in Elements(s[..i]) {
      var k :| 0 <= k < i && s[k] == s[i];
      LessIrreflexive(s[i]);
    }
  }

  lemma ElementsAppend(s: seq<Path>, p: Path)
    ensures Elements(s + [p]) == Elements(s) + {p}
  {
  }

  /** Appending the least remaining path keeps the listing sorted and below what remains. */
  lemma AppendSmallest(r: seq<Path>, remaining: set<Path>, p: Path)
    requires StrictlySorted(r)
    requires forall i, x :: 0 <= i < |r| && x in remaining ==> Less(r[i], x)
    requires p in remaining
    requires forall x :: x in remaining && x != p ==> Less(p, x)
    ensures StrictlySorted(r + [p])
    ensures forall i, x :: 0 <= i < |r + [p]| && x in remaining - {p} ==> Less((r + [p])[i], x)
  {
  }

  /** `sorted(paths)`: the paths of a set, least first, built by taking the least remaining path each time. */
  method SortedPaths(paths: set<Path>) returns (r: seq<Path>)
    ensures StrictlySorted(r) && Elements(r) == paths && |r| == |paths|
  {
    r := [];
    var remaining := paths;
    while remaining != {}
      invariant remaining <= paths
      invariant Elements(r) == paths - remaining
      invariant StrictlySorted(r)
      invariant forall i, x :: 0 <= i < |r| && x in remaining ==> Less(r[i], x)
      decreases remaining
    {
      var p := Smallest(remaining);
      AppendSmallest(r, remaining, p);
      ElementsAppend(r, p);
      r := r + [p];
      remaining := remaining - {p};
    }
    SortedListingLength(r);
  }
}

=== FILE: snapshot.dfy ===
/**
 * The snapshot store: the metadata record of the last run, how it is read
 * back at start-up, and how it is written at the end of a run.
 */
module SnapshotStore {
  import opened Optional
  import opened Fingerprinter

  /** The value of the `backup_type` key. */
  datatype Mode = Incremental | Full

  /**
   * The metadata dictionary. Each key may be absent: a fresh start has
   * none of them, a completed run writes all of them.
   */
  datatype Metadata = Metadata(
    lastBackup: Option<string>,
    source: Option<string>,
    destination: Option<string>,
    files: Option<FileMap>,
    backupType: Option<Mode>)

  /** The empty dictionary `{}`. */
  const EmptyMetadata: Metadata := Metadata(None, None, None, None, None)

  /**
   * The metadata file on disk: absent, unreadable (opening or reading
   * raises an I/O error), not valid JSON, or a JSON object.
   */
  datatype StoredFile = Absent | Unreadable | Malformed | Json(metadata: Metadata)

  /** Loading never fails the run: a missing, unreadable or corrupt file gives `{}`. */
  function LoadMetadata(stored: StoredFile): (m: Metadata)
    ensures stored.Json? ==> m == stored.metadata
    ensures !stored.Json? ==> m == EmptyMetadata
    ensures !stored.Json? ==> m.files.None?
  {
    match stored
    case Json(metadata) => metadata
    case _ => EmptyMetadata
  }

  /** `metadata.get("files", {})`. */
  function PreviousFiles(m: Metadata): FileMap {
    m.files.GetOr(map[])
  }

  /** The record that replaces the metadata wholesale at the end of a run. */
  function NewSnapshot(now: string, sourcePath: string, destPath: string, current: FileMap, incremental: bool): (m: Metadata)
    ensures m.files == Some(current)
    ensures m.backupType == Some(Incremental) <==> incremental
    ensures m.backupType == Some(Full) <==> !incremental
    ensures m.lastBackup == Some(now) && m.source == Some(sourcePath) && m.destination == Some(destPath)
  {
    Metadata(Some(now), Some(sourcePath), Some(destPath), Some(current), Some(if incremental then Incremental else Full))
  }

  /**
   * How a write of the metadata file ends: written in full; failed to open
   * (the old file is untouched); or failed after opening for writing, which
   * has already truncated the old file.
   */
  datatype SaveResult = Saved | OpenFailed | WriteFailed

  /** The file on disk after an attempt to write `m` over `previous`. */
  function AfterSave(previous: StoredFile, m: Metadata, result: SaveResult): StoredFile {
    match result
    case Saved => Json(m)
    case OpenFailed => previous
    case WriteFailed => Malformed
  }

  /** What the next start-up loads after an attempt to save `m`. */
  lemma LoadAfterSave(previous: StoredFile, m: Metadata, result: SaveResult)
    ensures result.Saved? ==> LoadMetadata(AfterSave(previous, m, result)) == m
    ensures result.OpenFailed? ==> LoadMetadata(AfterSave(previous, m, result)) == LoadMetadata(previous)
    ensures result.WriteFailed? ==> LoadMetadata(AfterSave(previous, m, result)).files.None?
  {
  }

  /** The metadata file at its fixed location. */
  class MetadataFile {
    var stored: StoredFile

    constructor (initial: StoredFile)
      ensures stored == initial
    {
      stored := initial;
    }

    /** Writes `m`; an I/O error is reported and swallowed. */
    method Save(m: Metadata, result: SaveResult)
      modifies this
      ensures stored == AfterSave(old(stored), m, result)
      ensures result.Saved? ==> LoadMetadata(stored) == m
    {
      stored := AfterSave(stored, m, result);
    }
  }
}
